=== FILE: README.md ===
# Loan eligibility: feature construction model

This project models, in Dafny, how the loan eligibility app turns one applicant into the numeric row its classifier reads. It also models how the training script builds the column list that row must follow.

- **Inference** (`app_streamlit.py`, Predict handler). The form values are encoded into a dictionary of fourteen named numbers:
  - four binary flags;
  - Dependents, with "3+" read as 3;
  - two Property_Area indicators, with Rural as the all-zero baseline;
  - the five raw numbers;
  - Total_Income;
  - Loan_Income_Ratio, with its divide-by-zero guard.

  The dictionary is then reindexed onto the saved column list. The row gets exactly the list's columns, in the list's order. A column the encoder did not produce becomes 0, and an encoder key the list lacks is dropped.
- **Training** (`train_model.py`). The script:
  - normalises Dependents ("3+" becomes 3, then float), and repeats this on the feature frame;
  - maps the Y/N label to 1/0;
  - drops the label column;
  - expands categorical columns into drop-first indicator columns;
  - fills missing cells by forward fill, then 0 (after the expansion, so only numeric columns still hold missing cells);
  - saves the resulting column list as the schema.

Modules: `Wrappers` (Option, Result), `Numerals` (the text forms Python's `int` and `float` accept), `FeatureEncoder`, `Reindex`, `Reconciler` (encode then reindex, and how that meets the training schema), `TrainingColumns`, `Imputation` (in-place array methods proved against recursive specifications) and `SchemaBuilder`.

Numbers are Dafny `real`. The schema is any sequence of strings. The model does not assume the encoder's keys match the schema, because the code does not ensure it. Training names indicator columns `Gender_Male` and the like, while the app emits `Gender`. `Reconciler.BinaryFieldsNeverReachClassifier` proves the consequence: when Gender, Married and Education are categorical in the training frame, the reindexed row is the same whatever those three form fields say. Self_Employed is expanded the same way (to `Self_Employed_Yes`), but its name contains "_", so the argument that an indicator name always differs from a bare column name does not apply to it, and the model proves nothing about it.

The model follows the code:
- At inference, the code never rejects an unknown category string. It encodes it as 0.
- At inference, its only failure is `int(dependents)` on a text that is neither "3+" nor an integer.
- At training, two steps can fail: `astype(float)` on a Dependents text `float` cannot read (`TrainingColumns.ConversionError`), and `drop` when the Loan_Status column is missing (`SchemaBuilder.SchemaError`).
- It does not check the schema: an empty schema gives an empty row, and a repeated column repeats its value.

## Model

| member | source | states |
|---|---|---|
| `Numerals.ParseInt` | app_streamlit.py:106 | `int(text)` succeeds exactly on an optional sign followed by digits; a negative result needs a leading '-' |
| `Numerals.ParseIntShowNat` | app_streamlit.py:106 | `int` reads back the decimal text of every natural number as that number |
| `Numerals.ParseDecimal` | train_model.py:9 | on ASCII text, `float(text)` succeeds exactly on sign, digits, optional '.' and digits, with at least one digit |
| `Numerals.ParseDecimalExtendsParseInt` | train_model.py:9 | every text `int` accepts is accepted by `float` with the same value |
| `Numerals.ParseDecimalShowNat` | train_model.py:9 | `float` reads the decimal text of every natural number as that number |
| `FeatureEncoder.Indicator` | app_streamlit.py:111-115 | a `1 if c else 0` flag is 1 exactly when c holds and 0 exactly when it does not |
| `FeatureEncoder.LoanIncomeRatio` | app_streamlit.py:105 | the ratio is 0 when total income is 0; otherwise ratio times total income equals the loan amount; it is non-negative for non-negative inputs; it never fails |
| `FeatureEncoder.DependentsNumber` | app_streamlit.py:106 | "3+" gives 3; any other text succeeds exactly when `int` accepts it, with `int`'s value, and otherwise raises |
| `FeatureEncoder.AreaIndicators` | app_streamlit.py:107-108 | Semiurban indicator is 1 iff the area is "Semiurban", Urban indicator is 1 iff "Urban"; both are 0/1 and sum to at most 1 |
| `FeatureEncoder.Encode` | app_streamlit.py:104-125 | encoding succeeds exactly when Dependents is read; the dictionary then has exactly the fourteen keys |
| `FeatureEncoder.EncodeTotalOnForm` | app_streamlit.py:91-106 | every value the form's option sets and `min_value=0` inputs allow is encoded without error |
| `FeatureEncoder.EncodeBinaryFields` | app_streamlit.py:111-115 | Gender is 1 iff "Male", Married 1 iff "Yes", Education 1 iff "Graduate", Self_Employed 1 iff "Yes"; any other text is 0, not rejected |
| `FeatureEncoder.EncodePassesNumbersThrough` | app_streamlit.py:116-120 | the five raw numeric fields appear unchanged |
| `FeatureEncoder.EncodeIncomeFeatures` | app_streamlit.py:104-105 | Total_Income is the sum of both incomes; the ratio is 0 at zero income and otherwise times Total_Income gives LoanAmount |
| `FeatureEncoder.EncodeIncomeNonNegative` | app_streamlit.py:95-105 | with form inputs, Total_Income and Loan_Income_Ratio are non-negative |
| `FeatureEncoder.DependentsOfShowNat` | app_streamlit.py:106 | the decimal text of any natural number n is read as n, never as the "3+" case |
| `FeatureEncoder.EncodeDependents` | app_streamlit.py:101-113 | Dependents "3+" is encoded as 3 and "0"/"1"/"2" (any natural's text) as its number |
| `FeatureEncoder.EncodePropertyArea` | app_streamlit.py:107-122 | Urban gives (Semiurban 0, Urban 1), Semiurban gives (1, 0), Rural gives (0, 0); the two never sum above 1 |
| `FeatureEncoder.AreaIndicatorsRoundTrip` | app_streamlit.py:100-108 | on the three offered areas the indicator pair determines the area |
| `FeatureEncoder.EncodeBinaryFieldsAreLocal` | app_streamlit.py:110-125 | changing Gender, Married and Education changes no other entry of the dictionary |
| `FeatureEncoder.EncodeExample` | app_streamlit.py:104-125 | the applicant with income 5000 and loan 100 in an urban area gets Total_Income 5000, ratio 0.02, Urban 1, Semiurban 0 |
| `Reindex.ProjectValues` | app_streamlit.py:128 | one value per schema column: the frame's value when the column exists, else the fill value 0 |
| `Reindex.Project` | app_streamlit.py:128 | the reindexed row has exactly the schema's columns, in schema order, one value each |
| `Reindex.ProjectDependsOnlyOnSchemaColumns` | app_streamlit.py:128 | frames that agree on the schema's columns give the same row: keys outside the schema are dropped |
| `Reindex.ProjectRestricted` | app_streamlit.py:128 | restricting the frame to the schema's columns before reindexing changes nothing |
| `Reindex.AsMapOfProjection` | app_streamlit.py:128 | read back as a mapping, the reindexed row holds every schema column with its reindexed value |
| `Reindex.ProjectIdempotent` | app_streamlit.py:128 | reindexing a reindexed row by the same schema returns it unchanged |
| `Reconciler.Reconcile` | app_streamlit.py:127-128 | the row exists exactly when encoding succeeds; its columns are the schema's; a column the encoder does not produce is 0 |
| `Reconciler.ReconcileCarriesEncodedValues` | app_streamlit.py:110-128 | under a column the encoder produces, the row holds the encoder's value |
| `Reconciler.ReconcileRatioWithoutIncome` | app_streamlit.py:105-128 | with zero total income, Loan_Income_Ratio is 0 wherever the schema places it |
| `Reconciler.ReconcileDependsOnlyOnSchemaColumns` | app_streamlit.py:127-128 | two forms whose encodings agree on the schema's columns give the same row |
| `Reconciler.ReconcileTotalOnForm` | app_streamlit.py:91-128 | every form submission yields a row whose columns are exactly the schema |
| `Reconciler.ReconcileIgnoresBinaryFields` | app_streamlit.py:111-128 | with "Gender", "Married", "Education" absent from the schema, the row does not depend on those three fields |
| `Reconciler.BinaryFieldsNeverReachClassifier` | app_streamlit.py:110-128 | with those three columns categorical in the training frame, the saved schema omits their bare names and the row ignores them |
| `Reconciler.ForeignIndicatorIsZero` | app_streamlit.py:128 | a training indicator column such as Gender_Male is always 0 in the reindexed row |
| `Reconciler.ReconcileExample` | app_streamlit.py:104-128 | the worked applicant reindexed onto [Gender_Male, Total_Income, Loan_Income_Ratio, Property_Area_Urban] gives [0, 5000, 0.02, 1] |
| `TrainingColumns.ReplaceThreePlus` | train_model.py:9 | `.replace("3+", 3)` turns the text "3+" into the number 3 and leaves every other cell alone |
| `TrainingColumns.DependentsCell` | train_model.py:9 | one Dependents cell: "3+" becomes 3.0, NaN stays NaN, numbers stay, any other text becomes `float`'s value or raises exactly when `float` cannot read it |
| `TrainingColumns.AsFloat` | train_model.py:9 | `.astype(float)`: NaN stays NaN, numbers stay, a text succeeds exactly when `float` reads it and then yields `float`'s value |
| `TrainingColumns.NormaliseDependents` | train_model.py:9 | the column converts exactly when every cell does; the result has the column's length and each cell's conversion |
| `TrainingColumns.NormaliseDependentsFirstError` | train_model.py:9 | a failing column raises the error of its first cell that does not convert, every cell before it converting |
| `TrainingColumns.DependentsThreePlus` | train_model.py:9 | "3+" becomes 3.0 |
| `TrainingColumns.DependentsNumericText` | train_model.py:9 | the decimal text of n becomes n as a float; a missing cell stays missing |
| `TrainingColumns.NormaliseDependentsIdempotent` | train_model.py:21 | repeating the conversion on its own output, as line 21 does, changes nothing |
| `TrainingColumns.LabelValue` | train_model.py:10 | a label is present exactly for "Y" and "N", and is then 0 or 1 |
| `TrainingColumns.LabelRoundTrip` | train_model.py:10 | "Y" maps to 1 and "N" to 0, and a cell mapped to b is the text of b |
| `TrainingColumns.MapLabels` | train_model.py:10 | the mapped column has the column's length, with each cell mapped |
| `Imputation.ForwardFill` | train_model.py:23 | `fillna(method="ffill")` keeps the length; a missing cell copies the filled cell above it, and a missing first cell stays missing |
| `Imputation.FillZero` | train_model.py:23 | `fillna(0)`: nothing is missing afterwards, present cells are kept and missing ones become 0 |
| `Imputation.ForwardFillKeepsPresent` | train_model.py:23 | forward fill leaves each non-missing cell unchanged |
| `Imputation.ForwardFillNearest` | train_model.py:23 | after forward fill a missing cell holds the nearest non-missing cell above it |
| `Imputation.ForwardFillLeadingGap` | train_model.py:23 | a cell with nothing present at or above it stays missing after forward fill |
| `Imputation.Impute` | train_model.py:23 | `ffill` then `fillna(0)`: same length, nothing missing, a cell forward fill filled keeps that value, and one it left missing becomes 0 |
| `Imputation.ImputeNoMissing` | train_model.py:23 | after imputation the column has its length and no missing cell |
| `Imputation.ImputeKeepsPresent` | train_model.py:23 | imputation leaves every non-missing cell unchanged |
| `Imputation.ImputeNearestPreceding` | train_model.py:23 | a missing cell takes the value of the nearest non-missing cell above it |
| `Imputation.ImputeLeadingGapIsZero` | train_model.py:23 | a missing cell with nothing present above it becomes 0 |
| `Imputation.ImputeComplete` | train_model.py:23 | a column with nothing missing is left as it is |
| `Imputation.ImputeIdempotent` | train_model.py:23 | imputing an imputed column changes nothing |
| `Imputation.ForwardFillInPlace` | train_model.py:23 | the in-place scan leaves the array equal to the forward fill of its old contents |
| `Imputation.FillZeroInPlace` | train_model.py:23 | the in-place scan leaves the array equal to the zero fill of its old contents |
| `Imputation.ImputeColumn` | train_model.py:23 | the array ends equal to the imputation of its old contents |
| `Imputation.ImputeFrame` | train_model.py:23 | every column of the frame ends imputed, columns being distinct arrays |
| `SchemaBuilder.DropColumn` | train_model.py:18 | dropping succeeds exactly when the column exists; the result lacks it and keeps every other column |
| `SchemaBuilder.DummyNames` | train_model.py:22 | a numeric column has no indicators; every indicator is prefix_level for one of its levels; with levels present there is one indicator per level but one, and every level after the first has its indicator (`drop_first=True`) |
| `SchemaBuilder.NumericNames` | train_model.py:22 | the untouched columns are exactly the frame's numeric columns |
| `SchemaBuilder.AllDummyNames` | train_model.py:22 | the indicator columns are exactly those of the frame's categorical columns |
| `SchemaBuilder.GetDummiesColumns` | train_model.py:22 | the columns of `get_dummies` are exactly the numeric columns' names and the indicators of every column |
| `SchemaBuilder.BuildSchema` | train_model.py:18-29 | the schema is built exactly when the label column exists, otherwise drop raises; when built, its columns are exactly the untouched numeric columns and the indicator columns of the frame's columns other than the label |
| `SchemaBuilder.DummyNameHasSeparator` | train_model.py:22 | every indicator label contains "_" |
| `SchemaBuilder.AllDummyNamesHaveSeparator` | train_model.py:22 | every indicator column of a frame contains "_" |
| `SchemaBuilder.DummyNameIsLabel` | train_model.py:22 | an indicator label equals Loan_Status only when its prefix is "Loan" |
| `SchemaBuilder.DummyNameIsLabelExactly` | train_model.py:22 | an indicator label equals Loan_Status only for prefix "Loan" and level "Status" |
| `SchemaBuilder.LabelNotInSchema` | train_model.py:18-29 | the saved schema never contains Loan_Status, unless a categorical column "Loan" has level "Status" |
| `SchemaBuilder.CategoricalNameNotInSchema` | train_model.py:22-29 | a categorical column whose name has no "_" is not a schema column under its own name |
| `SchemaBuilder.BinaryFieldNamesNotInSchema` | train_model.py:22-29 | with Gender, Married and Education categorical, none of the three names is in the schema |

## Left out

- Streamlit UI: page navigation, `st.session_state`, styling, buttons and images (app_streamlit.py:12-101 outside the form values, 130-192). These are presentation.
- Artifact and data I/O: `joblib.load`/`joblib.dump` of the model and the column list, and the CSV read. The schema and the training frame are parameters instead.
- The classifier: `RandomForestClassifier` fitting and `predict`, and `train_test_split`. They are opaque library calls and are not modelled.
- `pd.get_dummies` level discovery and sorting. Each categorical column carries its sorted level list as input, and each column's kind (numeric or categorical, which pandas takes from its dtype) is an input too.
- `pd.get_dummies` naming: only the default `prefix_sep` "_" and the ordering (untouched columns first, then each indicator block) are modelled.
- The unused `df_encoded` computation (train_model.py:11-12). Its result is never read.
- Floating-point rounding and integer-versus-float column dtypes. All numbers are exact reals, so `5000 / 100` style ratios are exact.
- The label column `y` is not imputed, and NaN labels would reach `fit`. This belongs with the classifier.
- Numerals.ParseInt: does not accept surrounding whitespace, `_` digit separators or non-ASCII digits, which Python's `int` accepts. Those texts are errors in the model.
- Numerals.ParseDecimal: does not accept surrounding whitespace, `_` separators, exponents, non-ASCII decimal digits, or "inf"/"infinity"/"nan" in any letter case, which Python's `float` accepts. Those texts are errors in the model, and so in TrainingColumns.AsFloat, TrainingColumns.DependentsCell and TrainingColumns.NormaliseDependents.
- Missing categorical cells: `get_dummies` (train_model.py:22) runs before `fillna` (line 23), so a missing categorical cell never reaches imputation; it becomes an all-zero indicator row, the same as the dropped first level. The model takes the columns' kinds and levels as input and does not model missing categorical cells.
- Schema validation (non-empty, unique names) and rejection of unknown category strings. The code does neither, so neither is modelled.

=== FILE: feature_encoder.dfy ===
/**
  The inference-time encoder of the Predict handler (app_streamlit.py:104-125):
  the values of the application form become a mapping of fourteen named numbers.
  Numbers are modelled as reals; the division is exact.
*/
module FeatureEncoder {
  import opened Wrappers
  import Numerals

  /** The raw values the form collects (app_streamlit.py:91-101). */
  datatype LoanForm = LoanForm(
    gender: string,
    married: string,
    education: string,
    selfEmployed: string,
    applicantIncome: real,
    coapplicantIncome: real,
    loanAmount: real,
    loanAmountTerm: real,
    creditHistory: real,
    propertyArea: string,
    dependents: string)

  /** `int(dependents)` raising `ValueError` on a text that is neither "3+" nor an integer. */
  datatype EncodeError = DependentsNotAnInteger(text: string)

  /** The encoder's output: the dictionary built at app_streamlit.py:110-125. */
  type Features = map<string, real>

  /** The fourteen keys of the dictionary literal. */
  const ENCODER_KEYS: set<string> := {
    "Gender", "Married", "Dependents", "Education", "Self_Employed",
    "ApplicantIncome", "CoapplicantIncome", "LoanAmount", "Loan_Amount_Term",
    "Credit_History", "Property_Area_Semiurban", "Property_Area_Urban",
    "Total_Income", "Loan_Income_Ratio"}

  /** The option sets of the form's select boxes and the `min_value=0` of its number inputs. */
  predicate InFormDomain(f: LoanForm) {
    && f.gender in {"Male", "Female"}
    && f.married in {"Yes", "No"}
    && f.education in {"Graduate", "Not Graduate"}
    && f.selfEmployed in {"Yes", "No"}
    && f.applicantIncome >= 0.0
    && f.coapplicantIncome >= 0.0
    && f.loanAmount >= 0.0
    && f.loanAmountTerm >= 0.0
    && f.creditHistory in {1.0, 0.0}
    && f.propertyArea in {"Urban", "Semiurban", "Rural"}
    && f.dependents in {"0", "1", "2", "3+"}
  }

  /** `1 if <condition> else 0`. */
  function Indicator(holds: bool): (v: real)
    ensures v == 1.0 <==> holds
    ensures v == 0.0 <==> !holds
  {
    if holds then 1.0 else 0.0
  }

  /** `loan_amount / total_income if total_income != 0 else 0`. */
  function LoanIncomeRatio(loanAmount: real, totalIncome: real): (ratio: real)
    ensures totalIncome == 0.0 ==> ratio == 0.0
    ensures totalIncome != 0.0 ==> ratio * totalIncome == loanAmount
    ensures loanAmount >= 0.0 && totalIncome >= 0.0 ==> ratio >= 0.0
  {
    if totalIncome != 0.0 then loanAmount / totalIncome else 0.0
  }

  /** `3 if dependents == "3+" else int(dependents)`. */
  function DependentsNumber(text: string): (r: Result<int, EncodeError>)
    ensures text == "3+" ==> r == Ok(3)
    ensures text != "3+" ==> (r.Ok? <==> Numerals.ParseInt(text).Some?)
    ensures r.Ok? && text != "3+" ==> r.value == Numerals.ParseInt(text).value
  {
    if text == "3+" then Ok(3)
    else
      match Numerals.ParseInt(text)
      case Some(n) => Ok(n)
      case None => Err(DependentsNotAnInteger(text))
  }

  /** The two Property_Area indicators (Semiurban, Urban); Rural is the all-zero baseline. */
  function AreaIndicators(area: string): (ind: (real, real))
    ensures ind.0 == 1.0 <==> area == "Semiurban"
    ensures ind.1 == 1.0 <==> area == "Urban"
    ensures ind.0 in {0.0, 1.0} && ind.1 in {0.0, 1.0}
    ensures ind.0 + ind.1 <= 1.0
  {
    (Indicator(area == "Semiurban"), Indicator(area == "Urban"))
  }

  /** Reads the area back from its two indicators. */
  function AreaOf(ind: (real, real)): string {
    if ind.0 == 1.0 then "Semiurban" else if ind.1 == 1.0 then "Urban" else "Rural"
  }

  /** The value the dictionary literal gives one of its keys, once Dependents is read. */
  function FeatureValue(f: LoanForm, dependents: int, key: string): real {
    var totalIncome := f.applicantIncome + f.coapplicantIncome;
    var area := AreaIndicators(f.propertyArea);
    if key == "Gender" then Indicator(f.gender == "Male")
    else if key == "Married" then Indicator(f.married == "Yes")
    else if key == "Dependents" then dependents as real
    else if key == "Education" then Indicator(f.education == "Graduate")
    else if key == "Self_Employed" then Indicator(f.selfEmployed == "Yes")
    else if key == "ApplicantIncome" then f.applicantIncome
    else if key == "CoapplicantIncome" then f.coapplicantIncome
    else if key == "LoanAmount" then f.loanAmount
    else if key == "Loan_Amount_Term" then f.loanAmountTerm
    else if key == "Credit_History" then f.creditHistory
    else if key == "Property_Area_Semiurban" then area.0
    else if key == "Property_Area_Urban" then area.1
    else if key == "Total_Income" then totalIncome
    else if key == "Loan_Income_Ratio" then LoanIncomeRatio(f.loanAmount, totalIncome)
    else 0.0
  }

  /** The encoder of app_streamlit.py:104-125: the dictionary over the fourteen keys. */
  function Encode(f: LoanForm): (r: Result<Features, EncodeError>)
    ensures r.Ok? <==> DependentsNumber(f.dependents).Ok?
    ensures r.Ok? ==> r.value.Keys == ENCODER_KEYS
  {
    match DependentsNumber(f.dependents)
    case Err(e) => Err(e)
    case Ok(dependents) => Ok(map key | key in ENCODER_KEYS :: FeatureValue(f, dependents, key))
  }

  /** On every value the form can submit, the encoder succeeds. */
  lemma EncodeTotalOnForm(f: LoanForm)
    requires InFormDomain(f)
    ensures Encode(f).Ok?
  {
    if f.dependents == "0" {
      Numerals.ParseIntShowNat(0);
    } else if f.dependents == "1" {
      Numerals.ParseIntShowNat(1);
    } else if f.dependents == "2" {
      Numerals.ParseIntShowNat(2);
    }
  }

  /** Each of the four binary fields is 1 exactly for its positive literal and 0 for every other text. */
  lemma EncodeBinaryFields(f: LoanForm)
    requires Encode(f).Ok?
    ensures var m := Encode(f).value;
      && (m["Gender"] == 1.0 <==> f.gender == "Male")
      && (m["Gender"] == 0.0 <==> f.gender != "Male")
      && (m["Married"] == 1.0 <==> f.married == "Yes")
      && (m["Married"] == 0.0 <==> f.married != "Yes")
      && (m["Education"] == 1.0 <==> f.education == "Graduate")
      && (m["Education"] == 0.0 <==> f.education != "Graduate")
      && (m["Self_Employed"] == 1.0 <==> f.selfEmployed == "Yes")
      && (m["Self_Employed"] == 0.0 <==> f.selfEmployed != "Yes")
  {
  }

  /** The five numeric fields are passed through unchanged. */
  lemma EncodePassesNumbersThrough(f: LoanForm)
    requires Encode(f).Ok?
    ensures var m := Encode(f).value;
      && m["ApplicantIncome"] == f.applicantIncome
      && m["CoapplicantIncome"] == f.coapplicantIncome
      && m["LoanAmount"] == f.loanAmount
      && m["Loan_Amount_Term"] == f.loanAmountTerm
      && m["Credit_History"] == f.creditHistory
  {
  }

  /** The two derived income features. */
  lemma EncodeIncomeFeatures(f: LoanForm)
    requires Encode(f).Ok?
    ensures var m := Encode(f).value;
      && m["Total_Income"] == f.applicantIncome + f.coapplicantIncome
      && (m["Total_Income"] == 0.0 ==> m["Loan_Income_Ratio"] == 0.0)
      && (m["Total_Income"] != 0.0 ==> m["Loan_Income_Ratio"] * m["Total_Income"] == f.loanAmount)
  {
  }

  /** With the form's non-negative numbers, both derived features are non-negative. */
  lemma EncodeIncomeNonNegative(f: LoanForm)
    requires InFormDomain(f)
    ensures Encode(f).Ok?
    ensures Encode(f).value["Total_Income"] >= 0.0
    ensures Encode(f).value["Loan_Income_Ratio"] >= 0.0
  {
    EncodeTotalOnForm(f);
  }

  /** Any natural number's decimal text is read as that number; it is never the special text "3+". */
  lemma DependentsOfShowNat(n: nat)
    ensures DependentsNumber(Numerals.ShowNat(n)) == Ok(n)
  {
    Numerals.ParseIntShowNat(n);
  }

  /** "3+" is encoded as 3 and the decimal text of any natural number as that number. */
  lemma EncodeDependents(f: LoanForm, n: nat)
    requires f.dependents == "3+" || f.dependents == Numerals.ShowNat(n)
    ensures Encode(f).Ok?
    ensures Encode(f).value["Dependents"] == if f.dependents == "3+" then 3.0 else n as real
  {
    if f.dependents != "3+" {
      DependentsOfShowNat(n);
    }
  }

  /** The Property_Area indicators are one-hot over Semiurban and Urban, and Rural is (0, 0). */
  lemma EncodePropertyArea(f: LoanForm)
    requires Encode(f).Ok?
    ensures var m := Encode(f).value;
      && (f.propertyArea == "Urban" ==> m["Property_Area_Semiurban"] == 0.0 && m["Property_Area_Urban"] == 1.0)
      && (f.propertyArea == "Semiurban" ==> m["Property_Area_Semiurban"] == 1.0 && m["Property_Area_Urban"] == 0.0)
      && (f.propertyArea == "Rural" ==> m["Property_Area_Semiurban"] == 0.0 && m["Property_Area_Urban"] == 0.0)
      && m["Property_Area_Semiurban"] + m["Property_Area_Urban"] <= 1.0
  {
  }

  /** The indicators lose nothing on the three enumerated areas: the area can be read back. */
  lemma AreaIndicatorsRoundTrip(area: string)
    requires area in {"Urban", "Semiurban", "Rural"}
    ensures AreaOf(AreaIndicators(area)) == area
  {
  }

  /** Changing only Gender, Married and Education changes only those three entries. */
  lemma EncodeBinaryFieldsAreLocal(f1: LoanForm, f2: LoanForm)
    requires f2 == f1.(gender := f2.gender, married := f2.married, education := f2.education)
    requires Encode(f1).Ok?
    ensures Encode(f2).Ok?
    ensures forall key :: key in Encode(f1).value && key !in {"Gender", "Married", "Education"} ==>
      Encode(f2).value[key] == Encode(f1).value[key]
  {
  }

  /** The worked example: a graduate with income 5000 asking for 100 in an urban area. */
  lemma EncodeExample()
    ensures var f := LoanForm("Male", "Yes", "Graduate", "No", 5000.0, 0.0, 100.0, 360.0, 1.0, "Urban", "0");
      && Encode(f).Ok?
      && Encode(f).value["Total_Income"] == 5000.0
      && Encode(f).value["Loan_Income_Ratio"] == 0.02
      && Encode(f).value["Property_Area_Urban"] == 1.0
      && Encode(f).value["Property_Area_Semiurban"] == 0.0
      && Encode(f).value["Self_Employed"] == 0.0
      && Encode(f).value["Dependents"] == 0.0
  {
    Numerals.ParseIntShowNat(0);
  }
}

=== FILE: imputation.dfy ===
/**
  `df_features.fillna(method="ffill").fillna(0)` (train_model.py:23): every
  missing cell takes the nearest non-missing value above it in its column,
  and cells with nothing above them become 0.  The frame is filled column by
  column, each column an array updated in place.
*/
module Imputation {
  import opened Wrappers
  import TrainingColumns

  /** A cell of a float column, as the training conversions produce it. */
  type Cell = TrainingColumns.FloatCell

  /** The specification of forward fill, built up one row at a time from the top. */
  function ForwardFill(s: seq<Cell>): (r: seq<Cell>)
    ensures |r| == |s|
    ensures |s| > 0 && s[0].None? ==> r[0].None?
    ensures forall i :: 0 < i < |s| && s[i].None? ==> r[i] == r[i - 1]
  {
    if s == [] then []
    else
      var above := ForwardFill(s[..|s| - 1]);
      var last := s[|s| - 1];
      above + [if last.Some? || above == [] then last else above[|above| - 1]]
  }

  /** The specification of `fillna(0)`. */
  function FillZero(s: seq<Cell>): (r: seq<Cell>)
    ensures |r| == |s|
    ensures forall i :: 0 <= i < |s| ==> r[i].Some?
    ensures forall i :: 0 <= i < |s| && s[i].Some? ==> r[i] == s[i]
    ensures forall i :: 0 <= i < |s| && s[i].None? ==> r[i] == Some(0.0)
  {
    if s == [] then [] else FillZero(s[..|s| - 1]) + [if s[|s| - 1].Some? then s[|s| - 1] else Some(0.0)]
  }

  /** `fillna(method="ffill")` followed by `fillna(0)`. */
  function Impute(s: seq<Cell>): (r: seq<Cell>)
    ensures |r| == |s|
    ensures forall i :: 0 <= i < |s| ==> r[i].Some?
    ensures forall i :: 0 <= i < |s| && ForwardFill(s)[i].Some? ==> r[i] == ForwardFill(s)[i]
    ensures forall i :: 0 <= i < |s| && ForwardFill(s)[i].None? ==> r[i] == Some(0.0)
  {
    FillZero(ForwardFill(s))
  }

  predicate NoMissing(s: seq<Cell>) {
    forall i :: 0 <= i < |s| ==> s[i].Some?
  }

  /** Forward fill leaves every non-missing cell as it is. */
  lemma {:induction false} ForwardFillKeepsPresent(s: seq<Cell>, i: nat)
    requires i < |s| && s[i].Some?
    ensures ForwardFill(s)[i] == s[i]
  {
    if i < |s| - 1 {
      ForwardFillKeepsPresent(s[..|s| - 1], i);
    }
  }

  /** A missing cell takes the value of the nearest non-missing cell above it. */
  lemma {:induction false} ForwardFillNearest(s: seq<Cell>, j: nat, i: nat)
    requires j <= i < |s| && s[j].Some?
    requires forall k :: j < k <= i ==> s[k].None?
    ensures ForwardFill(s)[i] == s[j]
  {
    if i < |s| - 1 {
      ForwardFillNearest(s[..|s| - 1], j, i);
    } else if j == i {
      ForwardFillKeepsPresent(s, i);
    } else {
      ForwardFillNearest(s[..|s| - 1], j, i - 1);
    }
  }

  /** A cell with no non-missing cell at or above it stays missing after forward fill. */
  lemma {:induction false} ForwardFillLeadingGap(s: seq<Cell>, i: nat)
    requires i < |s|
    requires forall k :: 0 <= k <= i ==> s[k].None?
    ensures ForwardFill(s)[i].None?
  {
    if i < |s| - 1 {
      ForwardFillLeadingGap(s[..|s| - 1], i);
    } else if i > 0 {
      ForwardFillLeadingGap(s[..|s| - 1], i - 1);
    }
  }

  /** After imputation no cell is missing and the column has its length. */
  lemma ImputeNoMissing(s: seq<Cell>)
    ensures |Impute(s)| == |s|
    ensures NoMissing(Impute(s))
  {
  }

  /** Imputation leaves every non-missing cell unchanged. */
  lemma ImputeKeepsPresent(s: seq<Cell>, i: nat)
    requires i < |s| && s[i].Some?
    ensures Impute(s)[i] == s[i]
  {
    ForwardFillKeepsPresent(s, i);
  }

  /** A missing cell takes the value of the nearest non-missing cell above it. */
  lemma ImputeNearestPreceding(s: seq<Cell>, j: nat, i: nat)
    requires j < i < |s| && s[j].Some?
    requires forall k :: j < k <= i ==> s[k].None?
    ensures Impute(s)[i] == s[j]
  {
    ForwardFillNearest(s, j, i);
  }

  /** A missing cell with no non-missing cell above it becomes 0. */
  lemma ImputeLeadingGapIsZero(s: seq<Cell>, i: nat)
    requires i < |s|
    requires forall k :: 0 <= k <= i ==> s[k].None?
    ensures Impute(s)[i] == Some(0.0)
  {
    ForwardFillLeadingGap(s, i);
  }

  /** A column with nothing missing is left as it is. */
  lemma ImputeComplete(s: seq<Cell>)
    requires NoMissing(s)
    ensures Impute(s) == s
  {
    forall i | 0 <= i < |s| ensures ForwardFill(s)[i] == s[i] {
      ForwardFillKeepsPresent(s, i);
    }
    assert ForwardFill(s) == s;
  }

  /** Imputing an imputed column changes nothing. */
  lemma ImputeIdempotent(s: seq<Cell>)
    ensures Impute(Impute(s)) == Impute(s)
  {
    ImputeComplete(Impute(s));
  }

  /** `fillna(method="ffill")` on one column, in place. */
  method ForwardFillInPlace(a: array<Cell>)
    modifies a
    ensures a[..] == ForwardFill(old(a[..]))
  {
    ghost var s := a[..];
    var i := 0;
    while i < a.Length
      invariant 0 <= i <= a.Length
      invariant forall k :: 0 <= k < i ==> a[k] == ForwardFill(s)[k]
      invariant forall k :: i <= k < a.Length ==> a[k] == s[k]
    {
      if a[i].None? && i > 0 {
        a[i] := a[i - 1];
      } else if a[i].Some? {
        ForwardFillKeepsPresent(s, i);
      }
      i := i + 1;
    }
  }

  /** `fillna(0)` on one column, in place. */
  method FillZeroInPlace(a: array<Cell>)
    modifies a
    ensures a[..] == FillZero(old(a[..]))
  {
    ghost var s := a[..];
    var i := 0;
    while i < a.Length
      invariant 0 <= i <= a.Length
      invariant forall k :: 0 <= k < i ==> a[k] == FillZero(s)[k]
      invariant forall k :: i <= k < a.Length ==> a[k] == s[k]
    {
      if a[i].None? {
        a[i] := Some(0.0);
      }
      i := i + 1;
    }
  }

  /** `fillna(method="ffill").fillna(0)` on one column. */
  method ImputeColumn(a: array<Cell>)
    modifies a
    ensures a[..] == Impute(old(a[..]))
  {
    ForwardFillInPlace(a);
    FillZeroInPlace(a);
  }

  /** The same on every column of the frame; the columns are distinct arrays. */
  method ImputeFrame(columns: seq<array<Cell>>)
    requires forall i, j :: 0 <= i < j < |columns| ==> columns[i] != columns[j]
    modifies set i | 0 <= i < |columns| :: columns[i]
    ensures forall i :: 0 <= i < |columns| ==> columns[i][..] == Impute(old(columns[i][..]))
  {
    var k := 0;
    while k < |columns|
      invariant 0 <= k <= |columns|
      invariant forall i :: 0 <= i < k ==> columns[i][..] == Impute(old(columns[i][..]))
      invariant forall i :: k <= i < |columns| ==> columns[i][..] == old(columns[i][..])
    {
      ImputeColumn(columns[k]);
      k := k + 1;
    }
  }
}

=== FILE: numerals.dfy ===
/**
  The subset of Python's `int(text)` and `float(text)` conversions that the
  pipeline relies on: an optional sign, decimal digits and, for `float`, an
  optional fractional part.  Texts these conversions reject yield `None`
  (the source raises `ValueError`).
*/
module Numerals {
  import opened Wrappers

  predicate IsDigit(c: char) {
    '0' <= c <= '9'
  }

  predicate AllDigits(s: string) {
    forall i :: 0 <= i < |s| ==> IsDigit(s[i])
  }

  function DigitValue(c: char): (d: nat)
    requires IsDigit(c)
    ensures d < 10
  {
    c as int - '0' as int
  }

  function DigitChar(d: nat): (c: char)
    requires d < 10
    ensures IsDigit(c) && DigitValue(c) == d
  {
    ('0' as int + d) as char
  }

  /** The value of a string of decimal digits, most significant digit first. */
  function DigitsValue(s: string): nat
    requires AllDigits(s)
  {
    if s == [] then 0 else 10 * DigitsValue(s[..|s| - 1]) + DigitValue(s[|s| - 1])
  }

  function Pow10(k: nat): (p: nat)
    ensures p > 0
  {
    if k == 0 then 1 else 10 * Pow10(k - 1)
  }

  /** The shortest decimal text of a natural number. */
  function ShowNat(n: nat): (s: string)
    ensures |s| > 0 && AllDigits(s)
  {
    if n < 10 then [DigitChar(n)] else ShowNat(n / 10) + [DigitChar(n % 10)]
  }

  lemma {:induction false} DigitsValueOfShowNat(n: nat)
    ensures DigitsValue(ShowNat(n)) == n
  {
    if n >= 10 {
      var s := ShowNat(n);
      assert s[..|s| - 1] == ShowNat(n / 10);
      DigitsValueOfShowNat(n / 10);
    }
  }

  /** The text with one leading sign character removed, if it has one. */
  function Unsigned(s: string): string {
    if |s| > 0 && (s[0] == '+' || s[0] == '-') then s[1..] else s
  }

  predicate IsNegative(s: string) {
    |s| > 0 && s[0] == '-'
  }

  /** What `int(text)` accepts here: an optional sign followed by at least one digit. */
  predicate IsIntLiteral(s: string) {
    |Unsigned(s)| > 0 && AllDigits(Unsigned(s))
  }

  /** Python's `int(text)`; `None` where Python raises `ValueError`. */
  function ParseInt(s: string): (r: Option<int>)
    ensures r.Some? <==> IsIntLiteral(s)
    ensures r.Some? ==> (r.value < 0 ==> IsNegative(s))
  {
    if IsIntLiteral(s) then
      var magnitude: int := DigitsValue(Unsigned(s));
      Some(if IsNegative(s) then -magnitude else magnitude)
    else
      None
  }

  /** The position of the first '.' in the text, or its length when there is none. */
  function DotIndex(s: string): (k: nat)
    ensures k <= |s|
    ensures k < |s| ==> s[k] == '.'
    ensures forall i :: 0 <= i < k ==> s[i] != '.'
  {
    if s == [] then 0 else if s[0] == '.' then 0 else 1 + DotIndex(s[1..])
  }

  function IntegerPart(s: string): string {
    s[..DotIndex(s)]
  }

  function FractionPart(s: string): string {
    var k := DotIndex(s);
    if k < |s| then s[k + 1..] else []
  }

  /** What `float(text)` accepts here: sign, digits, optionally '.' and more digits; at least one digit. */
  predicate IsDecimalLiteral(s: string) {
    var body := Unsigned(s);
    AllDigits(IntegerPart(body)) && AllDigits(FractionPart(body))
    && |IntegerPart(body)| + |FractionPart(body)| > 0
  }

  /** Python's `float(text)`; `None` where Python raises `ValueError`. */
  function ParseDecimal(s: string): (r: Option<real>)
    ensures r.Some? <==> IsDecimalLiteral(s)
    ensures r.Some? ==> (r.value < 0.0 ==> IsNegative(s))
  {
    if IsDecimalLiteral(s) then
      var body := Unsigned(s);
      var fraction := FractionPart(body);
      var magnitude := DigitsValue(IntegerPart(body)) as real
                       + DigitsValue(fraction) as real / Pow10(|fraction|) as real;
      Some(if IsNegative(s) then -magnitude else magnitude)
    else
      None
  }

  /** `int` reads back the text `str` writes for a natural number. */
  lemma ParseIntShowNat(n: nat)
    ensures ParseInt(ShowNat(n)) == Some(n)
  {
    var s := ShowNat(n);
    assert IsDigit(s[0]);
    assert Unsigned(s) == s;
    DigitsValueOfShowNat(n);
  }

  /** On every text `int` accepts, `float` accepts it too and agrees on the value. */
  lemma ParseDecimalExtendsParseInt(s: string)
    requires ParseInt(s).Some?
    ensures ParseDecimal(s) == Some(ParseInt(s).value as real)
  {
    var body := Unsigned(s);
    assert DotIndex(body) == |body|;
    assert IntegerPart(body) == body;
    assert FractionPart(body) == [];
  }

  /** `float` reads the decimal text of a natural number as that number. */
  lemma ParseDecimalShowNat(n: nat)
    ensures ParseDecimal(ShowNat(n)) == Some(n as real)
  {
    ParseIntShowNat(n);
    ParseDecimalExtendsParseInt(ShowNat(n));
  }
}

=== FILE: reconciler.dfy ===
/**
  The Predict handler's feature row (app_streamlit.py:104-128): the form is
  encoded and the dictionary is reindexed onto the saved column list.  The
  last lemmas connect this to the schema the training script saves.
*/
module Reconciler {
  import opened Wrappers
  import FeatureEncoder
  import Reindex
  import SchemaBuilder

  /** The row handed to `model.predict`, or the error `int(dependents)` raises. */
  function Reconcile(f: FeatureEncoder.LoanForm, schema: seq<string>): (r: Result<Reindex.FeatureRow, FeatureEncoder.EncodeError>)
    ensures r.Ok? <==> FeatureEncoder.Encode(f).Ok?
    ensures r.Ok? ==> r.value.columns == schema && |r.value.values| == |schema|
    ensures r.Ok? ==> forall i :: 0 <= i < |schema| && schema[i] !in FeatureEncoder.ENCODER_KEYS ==> r.value.values[i] == 0.0
  {
    match FeatureEncoder.Encode(f)
    case Err(e) => Err(e)
    case Ok(features) => Ok(Reindex.Project(features, schema))
  }

  /** Under a column the encoder produces, the row holds the encoder's value. */
  lemma ReconcileCarriesEncodedValues(f: FeatureEncoder.LoanForm, schema: seq<string>, i: nat)
    requires FeatureEncoder.Encode(f).Ok?
    requires i < |schema| && schema[i] in FeatureEncoder.ENCODER_KEYS
    ensures Reconcile(f, schema).value.values[i] == FeatureEncoder.Encode(f).value[schema[i]]
  {
  }

  /** Without income, the Loan_Income_Ratio column is 0 wherever the schema places it. */
  lemma ReconcileRatioWithoutIncome(f: FeatureEncoder.LoanForm, schema: seq<string>, i: nat)
    requires FeatureEncoder.Encode(f).Ok?
    requires f.applicantIncome + f.coapplicantIncome == 0.0
    requires i < |schema| && schema[i] == "Loan_Income_Ratio"
    ensures Reconcile(f, schema).value.values[i] == 0.0
  {
    FeatureEncoder.EncodeIncomeFeatures(f);
  }

  /** Two forms whose encodings agree on the schema's columns give the same row. */
  lemma ReconcileDependsOnlyOnSchemaColumns(f1: FeatureEncoder.LoanForm, f2: FeatureEncoder.LoanForm, schema: seq<string>)
    requires FeatureEncoder.Encode(f1).Ok? && FeatureEncoder.Encode(f2).Ok?
    requires forall c :: c in schema && c in FeatureEncoder.ENCODER_KEYS ==>
      FeatureEncoder.Encode(f1).value[c] == FeatureEncoder.Encode(f2).value[c]
    ensures Reconcile(f1, schema) == Reconcile(f2, schema)
  {
    Reindex.ProjectDependsOnlyOnSchemaColumns(FeatureEncoder.Encode(f1).value, FeatureEncoder.Encode(f2).value, schema);
  }

  /** Every value the form can submit yields a row shaped exactly like the schema. */
  lemma ReconcileTotalOnForm(f: FeatureEncoder.LoanForm, schema: seq<string>)
    requires FeatureEncoder.InFormDomain(f)
    ensures Reconcile(f, schema).Ok?
    ensures Reconcile(f, schema).value.columns == schema
  {
    FeatureEncoder.EncodeTotalOnForm(f);
  }

  /** A schema without the "Gender", "Married" and "Education" columns makes the row independent of those three fields. */
  lemma ReconcileIgnoresBinaryFields(schema: seq<string>, f1: FeatureEncoder.LoanForm, f2: FeatureEncoder.LoanForm)
    requires "Gender" !in schema && "Married" !in schema && "Education" !in schema
    requires f2 == f1.(gender := f2.gender, married := f2.married, education := f2.education)
    requires FeatureEncoder.Encode(f1).Ok?
    ensures Reconcile(f1, schema).Ok? && Reconcile(f1, schema) == Reconcile(f2, schema)
  {
    var m1, m2 := FeatureEncoder.Encode(f1).value, FeatureEncoder.Encode(f2).value;
    FeatureEncoder.EncodeBinaryFieldsAreLocal(f1, f2);
    forall c | c in schema && c in m1 ensures c in m2 && m1[c] == m2[c] {
      assert c !in {"Gender", "Married", "Education"};
    }
    Reindex.ProjectDependsOnlyOnSchemaColumns(m1, m2, schema);
  }

  /**
    Training/serving skew: when the training frame holds Gender, Married and
    Education as categorical columns, the schema carries only their indicator
    columns (such as Gender_Male), so the encoder's "Gender", "Married" and
    "Education" values are dropped and the row does not depend on them.
  */
  lemma BinaryFieldsNeverReachClassifier(frame: seq<SchemaBuilder.Column>, g: nat, m: nat, e: nat, f1: FeatureEncoder.LoanForm, f2: FeatureEncoder.LoanForm)
    requires SchemaBuilder.LABEL in SchemaBuilder.Names(frame)
    requires SchemaBuilder.DistinctNames(frame)
    requires g < |frame| && frame[g].name == "Gender" && frame[g].kind.Categorical?
    requires m < |frame| && frame[m].name == "Married" && frame[m].kind.Categorical?
    requires e < |frame| && frame[e].name == "Education" && frame[e].kind.Categorical?
    requires f2 == f1.(gender := f2.gender, married := f2.married, education := f2.education)
    requires FeatureEncoder.Encode(f1).Ok?
    ensures SchemaBuilder.BuildSchema(frame).Ok?
    ensures Reconcile(f1, SchemaBuilder.BuildSchema(frame).value) == Reconcile(f2, SchemaBuilder.BuildSchema(frame).value)
  {
    SchemaBuilder.BinaryFieldNamesNotInSchema(frame, g, m, e);
    ReconcileIgnoresBinaryFields(SchemaBuilder.BuildSchema(frame).value, f1, f2);
  }

  /** An instance of `Reconcile`'s last ensures: Gender_Male, which the encoder never produces, is always 0. */
  lemma ForeignIndicatorIsZero(f: FeatureEncoder.LoanForm, schema: seq<string>, i: nat)
    requires FeatureEncoder.Encode(f).Ok?
    requires i < |schema| && schema[i] == "Gender_Male"
    ensures Reconcile(f, schema).value.values[i] == 0.0
  {
  }

  /** The worked example reindexed onto a schema that mixes produced and unproduced columns. */
  lemma ReconcileExample()
    ensures var f := FeatureEncoder.LoanForm("Male", "Yes", "Graduate", "No", 5000.0, 0.0, 100.0, 360.0, 1.0, "Urban", "0");
      var r := Reconcile(f, ["Gender_Male", "Total_Income", "Loan_Income_Ratio", "Property_Area_Urban"]);
      r.Ok? && r.value.values == [0.0, 5000.0, 0.02, 1.0]
  {
    FeatureEncoder.EncodeExample();
  }
}

=== FILE: reindex.dfy ===
/**
  `DataFrame.reindex(columns=feature_columns, fill_value=0)` applied to the
  one-row frame built from the encoder's dictionary (app_streamlit.py:127-128).
  The schema is an arbitrary sequence of column names; the classifier reads
  the row by position, so the row's column order is the schema's.
*/
module Reindex {

  /** A one-row frame: its column labels and the value under each. */
  datatype FeatureRow = FeatureRow(columns: seq<string>, values: seq<real>)

  /** The value `reindex` puts under one column: the frame's value, or the fill value 0. */
  function ValueOrZero(m: map<string, real>, column: string): real {
    if column in m then m[column] else 0.0
  }

  /** The values of the reindexed row, one per schema column. */
  function ProjectValues(m: map<string, real>, schema: seq<string>): (values: seq<real>)
    ensures |values| == |schema|
    ensures forall i :: 0 <= i < |schema| && schema[i] in m ==> values[i] == m[schema[i]]
    ensures forall i :: 0 <= i < |schema| && schema[i] !in m ==> values[i] == 0.0
  {
    if schema == [] then [] else [ValueOrZero(m, schema[0])] + ProjectValues(m, schema[1..])
  }

  /** The reindexed row: exactly the schema's columns, in the schema's order. */
  function Project(m: map<string, real>, schema: seq<string>): (row: FeatureRow)
    ensures row.columns == schema
    ensures |row.values| == |schema|
  {
    FeatureRow(schema, ProjectValues(m, schema))
  }

  /** The row read back as a mapping from column to value; the first occurrence of a label wins. */
  function AsMap(columns: seq<string>, values: seq<real>): (m: map<string, real>)
    requires |columns| == |values|
    ensures m.Keys == set c | c in columns
  {
    if columns == [] then map[] else AsMap(columns[1..], values[1..])[columns[0] := values[0]]
  }

  /** Only the frame's entries under schema columns matter: every other key is dropped. */
  lemma ProjectDependsOnlyOnSchemaColumns(m1: map<string, real>, m2: map<string, real>, schema: seq<string>)
    requires forall c :: c in schema ==> (c in m1 <==> c in m2)
    requires forall c :: c in schema && c in m1 && c in m2 ==> m1[c] == m2[c]
    ensures Project(m1, schema) == Project(m2, schema)
  {
    var v1, v2 := ProjectValues(m1, schema), ProjectValues(m2, schema);
    forall i | 0 <= i < |schema| ensures v1[i] == v2[i] {
      assert schema[i] in schema;
    }
  }

  /** Restricting the frame to the schema's columns first changes nothing. */
  lemma ProjectRestricted(m: map<string, real>, schema: seq<string>)
    ensures Project(map c | c in m && c in schema :: m[c], schema) == Project(m, schema)
  {
    ProjectDependsOnlyOnSchemaColumns(map c | c in m && c in schema :: m[c], m, schema);
  }

  /** Read back as a mapping, a reindexed row holds every schema column with its reindexed value. */
  lemma {:induction false} AsMapOfProjection(m: map<string, real>, schema: seq<string>)
    ensures var row := Project(m, schema);
      forall c :: c in schema ==> c in AsMap(row.columns, row.values) && AsMap(row.columns, row.values)[c] == ValueOrZero(m, c)
  {
    if schema != [] {
      AsMapOfProjection(m, schema[1..]);
    }
  }

  /** Reindexing an already reindexed row by the same schema gives it back unchanged. */
  lemma ProjectIdempotent(m: map<string, real>, schema: seq<string>)
    ensures var row := Project(m, schema);
      Project(AsMap(row.columns, row.values), schema) == row
  {
    var row := Project(m, schema);
    AsMapOfProjection(m, schema);
    var again := ProjectValues(AsMap(row.columns, row.values), schema);
    forall i | 0 <= i < |schema| ensures again[i] == row.values[i] {
      assert schema[i] in schema;
    }
  }
}

=== FILE: schema_builder.dfy ===
/**
  The training-time schema (train_model.py:18, 22, 26, 29): the label column
  is dropped from the frame, the remaining categorical columns are expanded
  into drop-first indicator columns, and the resulting column list is saved
  as the schema.  Which levels a categorical column has (discovered and sorted
  by pandas) is an input here: each column carries its level list.
*/
module SchemaBuilder {
  import opened Wrappers

  const LABEL: string := "Loan_Status"

  /** A numeric column keeps its name; a categorical one expands over its sorted levels. */
  datatype ColumnKind = Numeric | Categorical(levels: seq<string>)

  datatype Column = Column(name: string, kind: ColumnKind)

  /** `DataFrame.drop` raising `KeyError` on an absent label. */
  datatype SchemaError = ColumnNotFound(name: string)

  function Names(frame: seq<Column>): (names: seq<string>)
    ensures |names| == |frame|
    ensures forall i :: 0 <= i < |frame| ==> names[i] == frame[i].name
  {
    if frame == [] then [] else [frame[0].name] + Names(frame[1..])
  }

  predicate DistinctNames(frame: seq<Column>) {
    forall i, j :: 0 <= i < j < |frame| ==> frame[i].name != frame[j].name
  }

  /** The frame without every column carrying the given name, order kept. */
  function Without(frame: seq<Column>, name: string): (rest: seq<Column>)
    ensures forall c :: c in rest <==> c in frame && c.name != name
    ensures |rest| <= |frame|
  {
    if frame == [] then []
    else (if frame[0].name == name then [] else [frame[0]]) + Without(frame[1..], name)
  }

  /** `frame.drop(name, axis=1)`. */
  function DropColumn(frame: seq<Column>, name: string): (r: Result<seq<Column>, SchemaError>)
    ensures r.Ok? <==> name in Names(frame)
    ensures r.Err? ==> r.error == ColumnNotFound(name)
    ensures r.Ok? ==> name !in Names(r.value)
    ensures r.Ok? ==> forall c :: c in frame && c.name != name ==> c in r.value
    ensures r.Ok? ==> forall c :: c in r.value ==> c in frame
  {
    if name in Names(frame) then
      var rest := Without(frame, name);
      assert forall i :: 0 <= i < |rest| ==> rest[i] in rest;
      Ok(rest)
    else
      Err(ColumnNotFound(name))
  }

  /** The label pandas gives one indicator column: prefix, "_", level. */
  function DummyName(prefix: string, level: string): string {
    prefix + "_" + level
  }

  /** The indicator columns of one column under `drop_first=True`: every level but the first. */
  function DummyNames(c: Column): (names: seq<string>)
    ensures forall n :: n in names ==> c.kind.Categorical? && exists l :: l in c.kind.levels && n == DummyName(c.name, l)
    ensures c.kind.Numeric? ==> names == []
    ensures c.kind.Categorical? && |c.kind.levels| > 0 ==>
      |names| == |c.kind.levels| - 1 &&
      forall l :: l in c.kind.levels[1..] ==> DummyName(c.name, l) in names
  {
    match c.kind
    case Numeric => []
    case Categorical(levels) =>
      if |levels| <= 1 then []
      else
        var names := seq(|levels| - 1, i requires 0 <= i < |levels| - 1 => DummyName(c.name, levels[i + 1]));
        assert forall k :: 0 <= k < |levels| - 1 ==> names[k] == DummyName(c.name, levels[1..][k]) && names[k] in names;
        names
  }

  /** The names of the numeric columns, in frame order. */
  function NumericNames(frame: seq<Column>): (names: seq<string>)
    ensures forall n :: n in names <==> exists c :: c in frame && c.kind.Numeric? && c.name == n
  {
    if frame == [] then []
    else (if frame[0].kind.Numeric? then [frame[0].name] else []) + NumericNames(frame[1..])
  }

  /** The indicator columns of all categorical columns, block after block in frame order. */
  function AllDummyNames(frame: seq<Column>): (names: seq<string>)
    ensures forall n :: n in names <==> exists c :: c in frame && n in DummyNames(c)
  {
    if frame == [] then [] else DummyNames(frame[0]) + AllDummyNames(frame[1..])
  }

  /** The columns of `pd.get_dummies(frame, drop_first=True)`: untouched columns first, then the indicators. */
  function GetDummiesColumns(frame: seq<Column>): (names: seq<string>)
    ensures forall n :: n in names <==>
      exists c :: c in frame && ((c.kind.Numeric? && n == c.name) || n in DummyNames(c))
  {
    NumericNames(frame) + AllDummyNames(frame)
  }

  /** The saved schema: the column list of the encoded, label-free feature frame. */
  function BuildSchema(frame: seq<Column>): (r: Result<seq<string>, SchemaError>)
    ensures r.Ok? <==> LABEL in Names(frame)
    ensures r.Err? ==> r.error == ColumnNotFound(LABEL)
    ensures r.Ok? ==> forall n :: n in r.value <==>
      exists c :: c in frame && c.name != LABEL && ((c.kind.Numeric? && n == c.name) || n in DummyNames(c))
  {
    match DropColumn(frame, LABEL)
    case Err(e) => Err(e)
    case Ok(features) => Ok(GetDummiesColumns(features))
  }

  /** Every indicator label contains the separator "_". */
  lemma DummyNameHasSeparator(prefix: string, level: string)
    ensures '_' in DummyName(prefix, level)
  {
    assert DummyName(prefix, level)[|prefix|] == '_';
  }

  /** Every label among the indicator columns contains "_". */
  lemma AllDummyNamesHaveSeparator(frame: seq<Column>)
    ensures forall n :: n in AllDummyNames(frame) ==> '_' in n
  {
    forall n | n in AllDummyNames(frame) ensures '_' in n {
      var c :| c in frame && n in DummyNames(c);
      var l :| l in c.kind.levels && n == DummyName(c.name, l);
      DummyNameHasSeparator(c.name, l);
    }
  }

  /** The only way an indicator label can spell the label column is level "Status" of a column "Loan". */
  lemma DummyNameIsLabel(prefix: string, level: string)
    requires DummyName(prefix, level) == LABEL
    ensures prefix == "Loan"
  {
    var d := DummyName(prefix, level);
    assert d[|prefix|] == '_';
    assert prefix == d[..4];
  }

  /** The only indicator label that spells the label column is level "Status" of a column "Loan". */
  lemma DummyNameIsLabelExactly(prefix: string, level: string)
    requires DummyName(prefix, level) == LABEL
    ensures prefix == "Loan" && level == "Status"
  {
    DummyNameIsLabel(prefix, level);
    assert level == DummyName(prefix, level)[5..];
  }

  /** The saved schema never holds the label column, unless a categorical column "Loan" has level "Status". */
  lemma LabelNotInSchema(frame: seq<Column>)
    requires LABEL in Names(frame)
    requires forall c :: c in frame && c.kind.Categorical? && c.name == "Loan" ==> "Status" !in c.kind.levels
    ensures BuildSchema(frame).Ok?
    ensures LABEL !in BuildSchema(frame).value
  {
    var features := DropColumn(frame, LABEL).value;
    if LABEL in AllDummyNames(features) {
      var c :| c in features && LABEL in DummyNames(c);
      var l :| l in c.kind.levels && LABEL == DummyName(c.name, l);
      DummyNameIsLabelExactly(c.name, l);
    }
  }

  /** A categorical column whose name has no "_" never reaches the schema under its own name. */
  lemma CategoricalNameNotInSchema(frame: seq<Column>, i: nat)
    requires LABEL in Names(frame)
    requires DistinctNames(frame)
    requires i < |frame| && frame[i].kind.Categorical?
    requires '_' !in frame[i].name
    ensures BuildSchema(frame).Ok?
    ensures frame[i].name !in BuildSchema(frame).value
  {
    AllDummyNamesHaveSeparator(DropColumn(frame, LABEL).value);
  }

  /** The three binary field names of the form carry no separator. */
  lemma BinaryFieldNamesHaveNoSeparator()
    ensures '_' !in "Gender" && '_' !in "Married" && '_' !in "Education"
  {
  }

  /** With Gender, Married and Education categorical in the training frame, none of the three names is a schema column. */
  lemma BinaryFieldNamesNotInSchema(frame: seq<Column>, g: nat, m: nat, e: nat)
    requires LABEL in Names(frame)
    requires DistinctNames(frame)
    requires g < |frame| && frame[g].name == "Gender" && frame[g].kind.Categorical?
    requires m < |frame| && frame[m].name == "Married" && frame[m].kind.Categorical?
    requires e < |frame| && frame[e].name == "Education" && frame[e].kind.Categorical?
    ensures BuildSchema(frame).Ok?
    ensures var schema := BuildSchema(frame).value;
      "Gender" !in schema && "Married" !in schema && "Education" !in schema
  {
    BinaryFieldNamesHaveNoSeparator();
    CategoricalNameNotInSchema(frame, g);
    CategoricalNameNotInSchema(frame, m);
    CategoricalNameNotInSchema(frame, e);
  }
}

=== FILE: training_columns.dfy ===
/**
  The element-wise column conversions of the training script:
  Dependents (train_model.py:9, repeated on the feature frame at line 21)
  and the Loan_Status label (train_model.py:10).
*/
module TrainingColumns {
  import opened Wrappers
  import Numerals

  /** A cell of a column as read from the CSV: missing (NaN), a text, or a number. */
  datatype RawCell = Missing | Text(text: string) | Number(x: real)

  /** A cell of a float column; `None` is NaN. */
  type FloatCell = Option<real>

  /** `astype(float)` raising `ValueError` on a text `float` cannot read. */
  datatype ConversionError = NotAFloat(text: string)

  /** `.replace("3+", 3)` on one cell. */
  function ReplaceThreePlus(c: RawCell): (r: RawCell)
    ensures c == Text("3+") ==> r == Number(3.0)
    ensures c != Text("3+") ==> r == c
  {
    if c == Text("3+") then Number(3.0) else c
  }

  /** `.astype(float)` on one cell: NaN stays NaN, numbers stay, texts are read by `float`. */
  function AsFloat(c: RawCell): (r: Result<FloatCell, ConversionError>)
    ensures c.Missing? ==> r == Ok(None)
    ensures c.Number? ==> r == Ok(Some(c.x))
    ensures c.Text? ==> (r.Ok? <==> Numerals.ParseDecimal(c.text).Some?)
    ensures c.Text? && r.Ok? ==> r == Ok(Some(Numerals.ParseDecimal(c.text).value))
  {
    match c
    case Missing => Ok(None)
    case Number(x) => Ok(Some(x))
    case Text(s) =>
      match Numerals.ParseDecimal(s)
      case Some(v) => Ok(Some(v))
      case None => Err(NotAFloat(s))
  }

  /** The Dependents conversion of one cell. */
  function DependentsCell(c: RawCell): (r: Result<FloatCell, ConversionError>)
    ensures c == Text("3+") ==> r == Ok(Some(3.0))
    ensures c.Missing? ==> r == Ok(None)
    ensures c.Number? ==> r == Ok(Some(c.x))
    ensures c.Text? && c.text != "3+" ==> (r.Ok? <==> Numerals.ParseDecimal(c.text).Some?)
    ensures c.Text? && c.text != "3+" && r.Ok? ==> r == Ok(Some(Numerals.ParseDecimal(c.text).value))
  {
    AsFloat(ReplaceThreePlus(c))
  }

  /** `df["Dependents"].replace("3+", 3).astype(float)`: all cells convert, or the first failure is raised (NormaliseDependentsFirstError). */
  function NormaliseDependents(column: seq<RawCell>): (r: Result<seq<FloatCell>, ConversionError>)
    ensures r.Ok? <==> forall i :: 0 <= i < |column| ==> DependentsCell(column[i]).Ok?
    ensures r.Ok? ==> |r.value| == |column|
    ensures r.Ok? ==> forall i :: 0 <= i < |column| ==> r.value[i] == DependentsCell(column[i]).value
  {
    if column == [] then Ok([])
    else
      match DependentsCell(column[0])
      case Err(e) => Err(e)
      case Ok(head) =>
        match NormaliseDependents(column[1..])
        case Err(e) => Err(e)
        case Ok(tail) => Ok([head] + tail)
  }

  /** A failing column raises the error of its first cell that does not convert. */
  lemma {:induction false} NormaliseDependentsFirstError(column: seq<RawCell>)
    requires NormaliseDependents(column).Err?
    ensures exists i ::
      && 0 <= i < |column|
      && DependentsCell(column[i]).Err?
      && NormaliseDependents(column).error == DependentsCell(column[i]).error
      && forall k :: 0 <= k < i ==> DependentsCell(column[k]).Ok?
  {
    if DependentsCell(column[0]).Ok? {
      NormaliseDependentsFirstError(column[1..]);
      var j :|
        && 0 <= j < |column[1..]|
        && DependentsCell(column[1..][j]).Err?
        && NormaliseDependents(column[1..]).error == DependentsCell(column[1..][j]).error
        && forall k :: 0 <= k < j ==> DependentsCell(column[1..][k]).Ok?;
      assert column[j + 1] == column[1..][j];
      assert forall k :: 1 <= k < j + 1 ==> column[k] == column[1..][k - 1];
    } else {
      assert DependentsCell(column[0]).Err?;
    }
  }

  /** A float column seen again as raw cells, as line 21 sees the column line 9 produced. */
  function AsRawColumn(column: seq<FloatCell>): (raw: seq<RawCell>)
    ensures |raw| == |column|
    ensures forall i :: 0 <= i < |column| ==> (raw[i].Missing? <==> column[i].None?)
    ensures forall i :: 0 <= i < |column| && column[i].Some? ==> raw[i] == Number(column[i].value)
  {
    if column == [] then []
    else [if column[0].Some? then Number(column[0].value) else Missing] + AsRawColumn(column[1..])
  }

  /** "3+" becomes 3.0. */
  lemma DependentsThreePlus()
    ensures DependentsCell(Text("3+")) == Ok(Some(3.0))
  {
  }

  /** The decimal text of a natural number becomes that number as a float; a missing cell stays missing. */
  lemma DependentsNumericText(n: nat)
    ensures DependentsCell(Text(Numerals.ShowNat(n))) == Ok(Some(n as real))
    ensures DependentsCell(Missing) == Ok(None)
  {
    Numerals.ParseDecimalShowNat(n);
  }

  /** Repeating the conversion on its own output (train_model.py:21 after line 9) changes nothing. */
  lemma NormaliseDependentsIdempotent(column: seq<RawCell>)
    requires NormaliseDependents(column).Ok?
    ensures NormaliseDependents(AsRawColumn(NormaliseDependents(column).value)) == NormaliseDependents(column)
  {
    var once := NormaliseDependents(column).value;
    var twice := NormaliseDependents(AsRawColumn(once));
    assert forall i :: 0 <= i < |once| ==> DependentsCell(AsRawColumn(once)[i]) == Ok(once[i]);
    assert twice.value == once;
  }

  /** `.map({"Y": 1, "N": 0})` on one cell; every other cell becomes NaN (`None`). */
  function LabelValue(c: RawCell): (r: Option<int>)
    ensures r.Some? <==> c == Text("Y") || c == Text("N")
    ensures r.Some? ==> r.value in {0, 1}
  {
    if c == Text("Y") then Some(1) else if c == Text("N") then Some(0) else None
  }

  /** The text a label value comes from. */
  function LabelText(outcome: int): string {
    if outcome == 1 then "Y" else "N"
  }

  /** The label mapping is a bijection between {"Y", "N"} and {1, 0}. */
  lemma LabelRoundTrip(c: RawCell, outcome: int)
    ensures outcome in {0, 1} ==> LabelValue(Text(LabelText(outcome))) == Some(outcome)
    ensures LabelValue(c) == Some(outcome) ==> c == Text(LabelText(outcome))
  {
  }

  /** `df["Loan_Status"].map({"Y": 1, "N": 0})` on the whole column. */
  function MapLabels(column: seq<RawCell>): (labels: seq<Option<int>>)
    ensures |labels| == |column|
    ensures forall i :: 0 <= i < |column| ==> labels[i] == LabelValue(column[i])
  {
    if column == [] then [] else [LabelValue(column[0])] + MapLabels(column[1..])
  }
}

=== FILE: wrappers.dfy ===
/** Option and Result datatypes shared by every module. */
module Wrappers {

  /** An optional value; in the training columns `None` stands for a missing (NaN) cell. */
  datatype Option<+T> = None | Some(value: T)

  /** The outcome of an operation that can raise in the source. */
  datatype Result<+R, +E> = Ok(value: R) | Err(error: E)
}
